=== FILE: README.md ===
# ItinerarAI: itinerary prompt builder and loading-overlay progress model

A Dafny model of the two pieces of logic in ItinerarAI that compute
something on their own:

- **The itinerary prompt builder** (`generate_itinerary_prompt` in
  `utils/prompt_generation.py`). It reads the trip's start and end dates
  the way `datetime.strptime(text, "%Y-%m-%d")` does and counts the trip's
  days, both ends included. It refuses malformed dates and an end before the
  start with a `ValueError` whose message begins
  `Invalid date format or range: `. It renders an optional weather block with
  per-field defaults. It picks a "Focus on" section from the trip purpose,
  ignoring case. It ends with a fixed daily-structure template.
- **The loading overlay's progress display**
  (`frontend/src/components/LoadingOverlay.new.jsx`). It has a five-step
  table with contiguous progress ranges from 0 to 100. A `reduce` picks the
  active step from the reported progress. Each step gets
  active/completed/failed flags, an icon and a clamped bar width. A status
  line shows either the percentage or the error.

Files:

- `wrappers.dfy`: `Option` and `Result`. Python's `None` and raised
  exceptions become these values.
- `text.dfy`: decimal digits, the text of an integer, and ASCII `lower` and
  `capitalize`.
- `calendar.dfy`: proleptic Gregorian dates and the day number
  (`date.toordinal`). It is built from the same closed form and month table
  that Python's `datetime` module uses. It proves that day numbers preserve
  calendar order.
- `date_parsing.dfy`: `strptime(text, "%Y-%m-%d")` as CPython's regular
  expression defines it:
  - `%Y` is exactly four digits.
  - `%m` is `1[0-2]`, `0[1-9]` or `[1-9]`, tried in that order and
    backtracked over when the `-` after it does not match.
  - `%d` is `3[01]`, `[12]\d`, `0[1-9]`, `[1-9]` or ` [1-9]`, and the first
    alternative that matches is kept.

  Each way the parse can fail is a case of its own: no match, unconverted
  data left over, year 0, or a day the month lacks.
- `prompt_generation.dfy`: the trip length, the weather context, the focus
  choice and the assembled prompt. The exceptions the function can raise are
  modelled too: its own `ValueError`, plus the `IndexError` and `KeyError`
  raised by a forecast whose `weather` list is empty or whose first entry
  has no description.
- `loading_overlay.dfy`: the step table, the reduce, the per-step view and
  the progress text.

The overlay polls `/itinerary/status/{taskId}`
(`frontend/src/components/LoadingOverlay.new.jsx:72`) for a task's status and
progress. The backend's `main.py` defines only `/health`, `/location-info`
and `/weather`; the task store behind the status endpoint is not part of this
model. The overlay's side of the protocol is modelled on
the status values the overlay reads.

## Model

| member | source | states |
|---|---|---|
| `Calendar.OrdinalIncreasing` | utils/prompt_generation.py:26-28 | a date strictly earlier on the calendar has a strictly smaller day number, so `(end - start).days` is positive exactly when the end is later |
| `Calendar.OrdinalOrder` | utils/prompt_generation.py:26-28 | for valid dates, day number of a <= day number of b iff b is not before a; equal day numbers iff equal dates |
| `Calendar.DaysBeforeYearStep` | utils/prompt_generation.py:28 | the closed-form count of days before a year grows by exactly that year's length (365, or 366 in a leap year) |
| `Calendar.Ordinal` | utils/prompt_generation.py:28 | a valid date's day number is at least 1, and 0001-01-01 is day 1, as `date.toordinal` counts |
| `Text.Lower` | utils/prompt_generation.py:55 | lower-casing keeps the length and lowers each character on its own (ASCII letters) |
| `Text.Capitalize` | utils/prompt_generation.py:50 | capitalising upper-cases the first character and lower-cases all the others, keeping the length |
| `DateParsing.ParseIsoDate` | utils/prompt_generation.py:26-27 | every accepted text gives a date datetime can hold (year 1..9999, real month and day), whose year is the value of the first four digits; a parse failure is never the builder's own range error |
| `DateParsing.ParseFormatRoundTrip` | utils/prompt_generation.py:26-27 | every valid date written as YYYY-MM-DD is accepted and read back unchanged |
| `DateParsing.UnpaddedAccepted` | utils/prompt_generation.py:26-27 | month and day need no zero padding: every valid date written with unpadded month and day is read as that date |
| `DateParsing.Detail` | utils/prompt_generation.py:26-32 | each failure has a non-empty message, and only the builder's own "End date must be after start date" starts with "E", so it is never confused with a parse error |
| `DateParsing.MonthToken` | utils/prompt_generation.py:26 | `%m` takes 1-2 digits followed by '-', worth 1 to 12, spelled zero-padded or unpadded, trying 10-12 before the zero-padded and one-digit forms |
| `DateParsing.DayToken` | utils/prompt_generation.py:26 | a `%d` token is a day 1 to 31, at most two characters long, and the text it takes is a spelling of that day: zero-padded, unpadded, or one digit after a space |
| `DateParsing.DayTokenFirstMatch` | utils/prompt_generation.py:26 | `%d` keeps the first alternative that matches: whenever the first two characters spell a day they are read whole (so "31" is day 31, never day 3 with "1" left over), and there is no token only when neither the first character nor the first two spell a day |
| `DateParsing.ParseIsoDateExact` | utils/prompt_generation.py:26-27 | a text is accepted as date d iff d is a valid date and the text spells it: four year digits, '-', month zero-padded or not, '-', day zero-padded, unpadded or space-padded; every other text is refused |
| `DateParsing.AcceptedIsSpelled` | utils/prompt_generation.py:26-27 | any accepted text is one of the spellings of the date it is read as |
| `DateParsing.ParseParts` | utils/prompt_generation.py:26-27 | a spelled-out year, month and day (in any of the accepted forms) followed by further text, unless that text continues a one-digit day with a digit: leftover text is refused first, then year 0, then a day the month lacks, else the date |
| `DateParsing.NonexistentDayRefused` | utils/prompt_generation.py:26-27 | a well-formed spelling of a day the month lacks (such as 2023-02-29) raises "day is out of range for month" |
| `DateParsing.YearZeroRefused` | utils/prompt_generation.py:26-27 | year 0000 matches the format but raises "year 0 is out of range" |
| `DateParsing.TrailingTextRefused` | utils/prompt_generation.py:26-27 | text after a complete date (such as 2024-01-01x) raises "unconverted data remains" naming the leftover text |
| `PromptGeneration.TripLength` | utils/prompt_generation.py:25-32 | a successful day count is at least 1 and equals the day-number difference plus one; the start date's parse error is reported first, then the end date's |
| `PromptGeneration.TripLengthOrdered` | utils/prompt_generation.py:28-30 | for two well-formed dates the count succeeds iff the end is not before the start, fails only with "End date must be after start date", and is 1 iff the dates are equal |
| `PromptGeneration.TripLengthOfFormattedDates` | utils/prompt_generation.py:25-30 | any ordered pair of valid dates, written canonically, gives the day-number difference plus one |
| `PromptGeneration.ErrorMessage` | utils/prompt_generation.py:31-32 | a message starts with "Invalid date format or range: " exactly for the date errors, and is then followed by the date error's own text |
| `PromptGeneration.Conditions` | utils/prompt_generation.py:37 | the conditions are "clear" without a weather list, fail exactly on an empty list or a first entry without description, and are otherwise that description |
| `PromptGeneration.WeatherLines` | utils/prompt_generation.py:39-45 | the block opens with the "Weather Forecast:" heading |
| `PromptGeneration.WeatherLinesShow` | utils/prompt_generation.py:39-45 | the block has a conditions, a temperature (in °C), a humidity (in %) and a wind (in m/s) line, each showing the value it was given |
| `PromptGeneration.WeatherContext` | utils/prompt_generation.py:34-45 | the context is empty iff the forecast is absent or an empty dictionary; it fails iff the forecast's conditions cannot be read (empty weather list, missing description), with that error; otherwise it is a block opening with the "Weather Forecast:" heading |
| `PromptGeneration.WeatherBlockShowsReadings` | utils/prompt_generation.py:36-45 | the block of a readable forecast shows each reading the forecast holds, and "clear", 20, "N/A" or "N/A" for each one it lacks, field by field |
| `PromptGeneration.MissingFieldsDefault` | utils/prompt_generation.py:37-44 | a forecast renders exactly as the same forecast with every missing field filled with its literal default: conditions "clear", temperature 20, humidity and wind "N/A" |
| `PromptGeneration.AllDefaults` | utils/prompt_generation.py:36-45 | a non-empty forecast holding none of the keys read still yields the block, with clear / 20 / N/A / N/A |
| `PromptGeneration.FocusOf` | utils/prompt_generation.py:55-80 | the holiday section iff the lower-cased purpose is "holiday", the business section iff it is "business", otherwise the general section carrying the purpose text |
| `PromptGeneration.FocusTextInjective` | utils/prompt_generation.py:55-80 | distinct focus choices give distinct section texts, so the appended section identifies the one branch taken |
| `PromptGeneration.HeaderPurposeMatchesFocus` | utils/prompt_generation.py:50-55 | the capitalised purpose in the header selects the same focus as the purpose itself |
| `PromptGeneration.FocusText` | utils/prompt_generation.py:55-80 | every focus section opens with the "Focus on:" heading and its first item marker; the general section's first item is the purpose text itself |
| `PromptGeneration.Opening` | utils/prompt_generation.py:48-50 | the header is the planner sentence with the day count, then "-day itinerary for ", the location, " from ", the start date string and " to ", the end date string, each verbatim, followed directly by "Trip Purpose: " and the capitalised purpose, with nothing else |
| `PromptGeneration.AssemblePrompt` | utils/prompt_generation.py:48-53 | the prompt is the header, a blank line, the weather context, a newline, then the focus section and the template: it starts with the first three, ends with the last two, and has no other text |
| `PromptGeneration.GenerateItineraryPrompt` | utils/prompt_generation.py:4-137 | fails with the date ValueError iff the day count fails, its message then beginning "Invalid date format or range: "; with valid dates a weather failure propagates unchanged; succeeds iff dates and weather context succeed; a prompt is exactly the header (day count, location, both date strings verbatim, capitalised purpose), a blank line, the weather context and a newline, then the one chosen focus section and the fixed itinerary template, with no other text |
| `PromptGeneration.EndBeforeStartRefused` | utils/prompt_generation.py:29-32 | well-formed dates with the end before the start give the ValueError "Invalid date format or range: End date must be after start date" and no prompt, whatever the other arguments |
| `PromptGeneration.NoForecastSucceeds` | utils/prompt_generation.py:34-53 | once the day count succeeds, a missing forecast never makes the prompt fail: the prompt is the one assembled with an empty weather context between header and focus section |
| `LoadingOverlay.LoadingSteps` | frontend/src/components/LoadingOverlay.new.jsx:19-50 | five steps, each range non-empty and ending where the next begins, from 0 to 100, the first being "initializing" |
| `LoadingOverlay.EffectiveProgress` | frontend/src/components/LoadingOverlay.new.jsx:147 | `progress || 0` is 0 exactly when the progress is null or 0, and otherwise the progress itself |
| `LoadingOverlay.ReduceActive` | frontend/src/components/LoadingOverlay.new.jsx:148-150 | each step of the reduce keeps its accumulator or moves it to a later step whose lower bound the progress reaches |
| `LoadingOverlay.ReduceActiveFindsLastReached` | frontend/src/components/LoadingOverlay.new.jsx:148-150 | the reduce returns the last step whose lower bound the progress reaches, or 0 when none is reached |
| `LoadingOverlay.ActiveStepIndex` | frontend/src/components/LoadingOverlay.new.jsx:146-151 | the active index lies in [0, 4] and is the greatest index whose lower bound is <= progress (missing progress read as 0), or 0 |
| `LoadingOverlay.LastReachedUnique` | frontend/src/components/LoadingOverlay.new.jsx:146-151 | that characterisation determines the index uniquely |
| `LoadingOverlay.ActiveStepMonotone` | frontend/src/components/LoadingOverlay.new.jsx:146-151 | more progress never moves the active step back |
| `LoadingOverlay.ActiveStepCoversProgress` | frontend/src/components/LoadingOverlay.new.jsx:19-50 | a progress in 0..99 lies in the active step's own range; 100 or more activates the last step, a negative one the first |
| `LoadingOverlay.NoProgressInitializing` | frontend/src/components/LoadingOverlay.new.jsx:147 | a missing or zero progress activates step 0, "initializing" |
| `LoadingOverlay.ClampPercent` | frontend/src/components/LoadingOverlay.new.jsx:198 | the bar width is always in [0, 100], equals its input inside that range, and is 0 below it and 100 above it |
| `LoadingOverlay.StepPercentInRange` | frontend/src/components/LoadingOverlay.new.jsx:171-173 | a progress inside a step's range is between 0 and 100 percent of that step |
| `LoadingOverlay.StepPercent` | frontend/src/components/LoadingOverlay.new.jsx:171-173 | the share times the step's width equals 100 times the progress already made into the step; so it is 0 exactly at the lower bound, negative exactly below it, and 100 at the upper bound |
| `LoadingOverlay.ViewStep` | frontend/src/components/LoadingOverlay.new.jsx:164-198 | a step is active exactly at the active index; the check icon marks completed steps, the error icon failed steps, the spinner the active step otherwise; only the active step has a bar, of width in [0, 100] |
| `LoadingOverlay.StepViews` | frontend/src/components/LoadingOverlay.new.jsx:164-205 | the step list has one view per step of the table, the view of step i being that step's view at index i |
| `LoadingOverlay.OneActiveStep` | frontend/src/components/LoadingOverlay.new.jsx:164-165 | exactly the step at the active index is active; only it shows a bar, and that bar's width is in [0, 100] |
| `LoadingOverlay.CompletedStepsPrefix` | frontend/src/components/LoadingOverlay.new.jsx:166-167 | a step is completed iff its index is below the active index, or it is the active step and the status is 'completed'; completed steps form a prefix |
| `LoadingOverlay.FailedOnlyOnLastStep` | frontend/src/components/LoadingOverlay.new.jsx:168 | only the last step can be failed, exactly when the status is 'failed'; it is then never completed, and the error icon appears exactly on failed steps |
| `LoadingOverlay.ActiveBarIsShareOfStep` | frontend/src/components/LoadingOverlay.new.jsx:171-174 | for progress in 0..99 the active bar shows, unclamped, the share of the active step's range already covered |
| `LoadingOverlay.ProgressText` | frontend/src/components/LoadingOverlay.new.jsx:214-216 | the text begins "Error: " iff the status is 'failed'; then it carries the error, or "Failed to generate itinerary" when there is none; otherwise it is the progress (missing read as 0) followed by "%" |
| `LoadingOverlay.ProgressTextDistinguishes` | frontend/src/components/LoadingOverlay.new.jsx:216 | two running tasks show the same percentage text only when their progress is the same |

## Left out

- The asynchronous task store, task lifecycle and background generation behind `/itinerary/status/{taskId}` are not part of this model: none of `main.py`, `utils/places.py`, `utils/weather.py`, `utils/prompt_generation.py`, `frontend/src/App.jsx` or the overlay itself implements them.
- `utils/places.py`, `utils/weather.py`, `main.py` and `frontend/src/App.jsx` are not part of this model. They hold HTTP calls to external services, routing and a form; their local checks are empty-field tests (an empty location in the backend; an empty location, start date or end date in the form, `frontend/src/App.jsx:20`) and a floating-point coordinate range test.
- Loading overlay: React state, the polling `setInterval`, the timers, the random tip and the markup (lines 4-143, 153-233) are not modelled, apart from the values the markup shows.
- LoadingOverlay.EffectiveProgress: progress is an integer or the JSON `null`. An absent `progress` key (JavaScript `undefined`, which makes the bar width `NaN%`) and non-integer progress are not modelled. For integers, `Math.round` is the identity and is not written out.
- LoadingOverlay.StepPercent: uses exact rational arithmetic where JavaScript uses floating point.
- The overall progress bar (line 211) has width `progress || 0`, which is not clamped. It is `EffectiveProgress`, and nothing further is proved about it.
- DateParsing.ParseIsoDate: only ASCII digits. Python's `\d` also matches other Unicode decimal digits.
- DateParsing.Detail: the `NoMatch` message puts the input in plain single quotes. Python uses `repr()`, which escapes some characters and may use double quotes.
- Text.Lower and Text.Capitalize map ASCII letters only. Python's `str.lower` and `str.capitalize` apply full Unicode case mapping.
- PromptGeneration.Forecast: temperature, humidity and wind are opaque strings standing for the text `str()` gives for the provider's values. Keys holding values of an unexpected type (a non-dictionary `main`, a non-list `weather`) are not modelled.
- PromptGeneration.WeatherLines: in the repository the temperature line's degree sign is stored as the two characters `Â°`, a doubly encoded UTF-8 `°`. The model uses `°`.
- The prompt's template wording is modelled verbatim. What is proved about the assembled prompt is its layout (header, weather context, focus section, template, in that order); nothing is proved about the wording of the template itself.

=== FILE: calendar.dfy ===
/** Proleptic Gregorian calendar dates as Python's datetime module counts
    them: years 1 to 9999, day numbers ("ordinals") counted from 0001-01-01. */
module Calendar {

  const MinYear := 1
  const MaxYear := 9999

  datatype Date = Date(year: int, month: int, day: int)

  predicate IsLeapYear(y: int) {
    y % 4 == 0 && (y % 100 != 0 || y % 400 == 0)
  }

  function DaysInYear(y: int): int {
    if IsLeapYear(y) then 366 else 365
  }

  function DaysInMonth(y: int, m: int): int
    requires 1 <= m <= 12
  {
    if m == 2 then (if IsLeapYear(y) then 29 else 28)
    else if m == 4 || m == 6 || m == 9 || m == 11 then 30
    else 31
  }

  /** A date Python's datetime accepts. */
  predicate ValidDate(d: Date) {
    MinYear <= d.year <= MaxYear && 1 <= d.month <= 12 && 1 <= d.day <= DaysInMonth(d.year, d.month)
  }

  /** Days in the years before `y`, by the closed form the datetime module uses. */
  function DaysBeforeYear(y: int): int
    requires y >= 1
  {
    var p := y - 1;
    p * 365 + p / 4 - p / 100 + p / 400
  }

  /** Days in the months of year `y` before month `m`, by the cumulative table
      the datetime module uses, plus one after February of a leap year. */
  function DaysBeforeMonth(y: int, m: int): int
    requires 1 <= m <= 12
  {
    [0, 31, 59, 90, 120, 151, 181, 212, 243, 273, 304, 334][m - 1]
      + (if m > 2 && IsLeapYear(y) then 1 else 0)
  }

  /** The day number of a date; 0001-01-01 is day 1 (date.toordinal). */
  function Ordinal(d: Date): (n: int)
    requires ValidDate(d)
    ensures n >= 1
    ensures d == Date(MinYear, 1, 1) ==> n == 1
  {
    DaysBeforeYear(d.year) + DaysBeforeMonth(d.year, d.month) + d.day
  }

  /** `a` comes strictly before `b` on the calendar: (year, month, day) compared in turn. */
  predicate Before(a: Date, b: Date) {
    a.year < b.year
    || (a.year == b.year && a.month < b.month)
    || (a.year == b.year && a.month == b.month && a.day < b.day)
  }

  /** The closed form adds exactly one year's length from one year to the next. */
  lemma DaysBeforeYearStep(y: int)
    requires y >= 1
    ensures DaysBeforeYear(y + 1) == DaysBeforeYear(y) + DaysInYear(y)
  {
    var p := y - 1;
    var q4 := QuotientStep(p, 4);
    var q100 := QuotientStep(p, 100);
    var q400 := QuotientStep(p, 400);
    MultiplesNest(y);
    assert DaysBeforeYear(y + 1) == p * 365 + 365 + (p / 4 + q4) - (p / 100 + q100) + (p / 400 + q400);
  }

  /** How much the whole quotient by `k` grows from `p` to `p + 1`, for the
      divisors of the leap-year rule: one at a multiple of `k`, else nothing. */
  lemma QuotientStep(p: int, k: int) returns (step: int)
    requires p >= 0 && (k == 4 || k == 100 || k == 400)
    ensures step == (if (p + 1) % k == 0 then 1 else 0)
    ensures (p + 1) / k == p / k + step
  {
    step := if (p + 1) % k == 0 then 1 else 0;
    if k == 4 {
      assert (p + 1) / 4 == p / 4 + step;
    } else if k == 100 {
      assert (p + 1) / 100 == p / 100 + step;
    } else {
      assert (p + 1) / 400 == p / 400 + step;
    }
  }

  /** Multiples of 400 are multiples of 100, which are multiples of 4. */
  lemma MultiplesNest(y: int)
    ensures y % 400 == 0 ==> y % 100 == 0
    ensures y % 100 == 0 ==> y % 4 == 0
  {
  }

  /** The month table adds exactly one month's length from one month to the
      next, and the months of a year add up to the year. */
  lemma DaysBeforeMonthStep(y: int, m: int)
    requires 1 <= m <= 12
    ensures m < 12 ==> DaysBeforeMonth(y, m + 1) == DaysBeforeMonth(y, m) + DaysInMonth(y, m)
    ensures m == 12 ==> DaysBeforeMonth(y, m) + DaysInMonth(y, m) == DaysInYear(y)
  {
  }

  /** Later years start later: every year in between adds its days. */
  lemma {:induction false} DaysBeforeYearGrows(y: int, z: int)
    requires 1 <= y < z
    ensures DaysBeforeYear(y) + DaysInYear(y) <= DaysBeforeYear(z)
    decreases z - y
  {
    DaysBeforeYearStep(y);
    if y + 1 < z {
      DaysBeforeYearGrows(y + 1, z);
    }
  }

  /** An earlier month of the same year ends no later than a later month starts. */
  lemma {:induction false} DaysBeforeMonthGrows(y: int, m: int, n: int)
    requires 1 <= m < n <= 12
    ensures DaysBeforeMonth(y, m) + DaysInMonth(y, m) <= DaysBeforeMonth(y, n)
    decreases n - m
  {
    DaysBeforeMonthStep(y, m);
    if m + 1 < n {
      DaysBeforeMonthGrows(y, m + 1, n);
      DaysBeforeMonthStep(y, m + 1);
    }
  }

  /** A valid date falls inside its own year. */
  lemma DayOfYearBounds(d: Date)
    requires ValidDate(d)
    ensures 1 <= DaysBeforeMonth(d.year, d.month) + d.day <= DaysInYear(d.year)
  {
    if d.month < 12 {
      DaysBeforeMonthGrows(d.year, d.month, 12);
    }
    DaysBeforeMonthStep(d.year, 12);
  }

  /** Day numbers respect calendar order. */
  lemma OrdinalIncreasing(a: Date, b: Date)
    requires ValidDate(a) && ValidDate(b) && Before(a, b)
    ensures Ordinal(a) < Ordinal(b)
  {
    if a.year < b.year {
      DayOfYearBounds(a);
      DayOfYearBounds(b);
      DaysBeforeYearGrows(a.year, b.year);
    } else if a.month < b.month {
      DaysBeforeMonthGrows(a.year, a.month, b.month);
    }
  }

  /** Comparing day numbers is comparing dates: equal numbers mean the same
      date, and a smaller-or-equal number means the date is not later. */
  lemma OrdinalOrder(a: Date, b: Date)
    requires ValidDate(a) && ValidDate(b)
    ensures Ordinal(a) <= Ordinal(b) <==> !Before(b, a)
    ensures Ordinal(a) == Ordinal(b) <==> a == b
  {
    if Before(a, b) {
      OrdinalIncreasing(a, b);
    } else if Before(b, a) {
      OrdinalIncreasing(b, a);
    }
  }
}

=== FILE: date_parsing.dfy ===
/** Python's datetime.strptime(text, "%Y-%m-%d") as the prompt builder calls
    it. The format compiles to a regular expression: %Y is exactly four
    digits; %m is "1[0-2]", "0[1-9]" or "[1-9]", tried in that order and
    backtracked over when the '-' that follows does not match; %d is
    "3[01]", "[12]\d", "0[1-9]", "[1-9]" or " [1-9]", where the first
    alternative that matches is kept. Text left over after the day is an
    error, and so is a year or day the calendar does not have. */
module DateParsing {
  import opened Wrappers
  import opened Text
  import opened Calendar

  /** The ValueErrors the parser and the range check raise. */
  datatype DateFailure =
    | NoMatch(data: string)         // the text does not match the format
    | Unconverted(rest: string)     // the format matched a prefix; `rest` is left over
    | YearOutOfRange(year: int)     // year 0000
    | DayOutOfRange                 // e.g. 2023-02-29
    | EndBeforeStart                // raised by the prompt builder itself

  /** The text of the ValueError. The quoting that Python's repr() applies
      to `data` is simplified to plain single quotes. */
  function Detail(f: DateFailure): (m: string)
    ensures |m| > 0 && (m[0] == 'E' <==> f.EndBeforeStart?)
  {
    match f
    case NoMatch(data) => "time data '" + data + "' does not match format '%Y-%m-%d'"
    case Unconverted(rest) => "unconverted data remains: " + rest
    case YearOutOfRange(year) => "year " + Decimal(year) + " is out of range"
    case DayOutOfRange => "day is out of range for month"
    case EndBeforeStart => "End date must be after start date"
  }

  predicate InRange(c: char, lo: char, hi: char) {
    lo <= c <= hi
  }

  /** The spellings %m accepts for month `m`: zero-padded or without padding. */
  predicate MonthSpelled(t: string, m: int) {
    0 <= m && (t == Padded(m, 2) || t == NatDecimal(m))
  }

  /** The spellings %d accepts for day `d`: zero-padded, without padding, or
      a single digit after a space. */
  predicate DaySpelled(t: string, d: int) {
    0 <= d && (t == Padded(d, 2) || t == NatDecimal(d) || (d < 10 && t == " " + NatDecimal(d)))
  }

  /** The month token at the start of `t` that is followed by '-': its value
      and its length in characters. */
  function MonthToken(t: string): (r: Option<(int, nat)>)
    ensures r.Some? ==> 1 <= r.value.0 <= 12 && 1 <= r.value.1 <= 2
    ensures r.Some? ==> r.value.1 < |t| && t[r.value.1] == '-'
    ensures r.Some? ==> AllDigits(t[..r.value.1]) && DigitsValue(t[..r.value.1]) == r.value.0
    ensures r.Some? ==> MonthSpelled(t[..r.value.1], r.value.0)
  {
    if |t| >= 3 && t[0] == '1' && InRange(t[1], '0', '2') && t[2] == '-' then
      LeadingDigits(t, 2);
      Some((10 + DigitValue(t[1]), 2))
    else if |t| >= 3 && t[0] == '0' && InRange(t[1], '1', '9') && t[2] == '-' then
      LeadingDigits(t, 2);
      Some((DigitValue(t[1]), 2))
    else if |t| >= 2 && InRange(t[0], '1', '9') && t[1] == '-' then
      LeadingDigits(t, 1);
      Some((DigitValue(t[0]), 1))
    else
      None
  }

  /** The first day alternative that matches at the start of `t`: its value
      and its length in characters. */
  function DayToken(t: string): (r: Option<(int, nat)>)
    ensures r.Some? ==> 1 <= r.value.0 <= 31 && 1 <= r.value.1 <= 2 && r.value.1 <= |t|
    ensures r.Some? ==> DaySpelled(t[..r.value.1], r.value.0)
  {
    if |t| >= 2 && t[0] == '3' && InRange(t[1], '0', '1') then
      LeadingDigits(t, 2);
      Some((30 + DigitValue(t[1]), 2))
    else if |t| >= 2 && InRange(t[0], '1', '2') && IsDigit(t[1]) then
      LeadingDigits(t, 2);
      Some((10 * DigitValue(t[0]) + DigitValue(t[1]), 2))
    else if |t| >= 2 && t[0] == '0' && InRange(t[1], '1', '9') then
      LeadingDigits(t, 2);
      Some((DigitValue(t[1]), 2))
    else if |t| >= 1 && InRange(t[0], '1', '9') then
      LeadingDigits(t, 1);
      Some((DigitValue(t[0]), 1))
    else if |t| >= 2 && t[0] == ' ' && InRange(t[1], '1', '9') then
      assert t[..2] == " " + [DigitChar(DigitValue(t[1]))];
      Some((DigitValue(t[1]), 2))
    else None
  }

  /** The characters a spelling of day `v` at the start of `t` consists of. */
  lemma DaySpellingChars(t: string, n: nat, v: nat)
    requires 1 <= n <= 2 && n <= |t| && 1 <= v <= 31 && DaySpelled(t[..n], v)
    ensures n == 1 ==> v < 10 && t[0] == DigitChar(v)
    ensures n == 2 ==> (t[0] == DigitChar(v / 10) && t[1] == DigitChar(v % 10))
                       || (v < 10 && t[0] == ' ' && t[1] == DigitChar(v))
  {
    PaddedTwo(v);
    var u := t[..n];
    assert u[0] == t[0];
    if n == 2 {
      assert u[1] == t[1];
      if v < 10 && u == NatDecimal(v) {
        assert false;
      }
    }
  }

  /** %d takes the first alternative that matches: a two-character
      spelling of a day is read whole (so "31" is day 31, never day 3 with
      "1" left over), and there is no token only where no spelling of a
      day starts the text. */
  lemma DayTokenFirstMatch(t: string)
    ensures forall v: nat :: 1 <= v <= 31 && 2 <= |t| && DaySpelled(t[..2], v) ==> DayToken(t) == Some((v, 2))
    ensures DayToken(t).None? ==>
      forall n: nat, v: nat :: 1 <= n <= 2 && n <= |t| && 1 <= v <= 31 ==> !DaySpelled(t[..n], v)
  {
    forall v: nat | 1 <= v <= 31 && 2 <= |t| && DaySpelled(t[..2], v)
      ensures DayToken(t) == Some((v, 2))
    {
      DaySpellingChars(t, 2, v);
      DigitCharRange(v);
    }
    forall n: nat, v: nat | 1 <= n <= 2 && n <= |t| && 1 <= v <= 31 && DaySpelled(t[..n], v)
      ensures DayToken(t).Some?
    {
      DaySpellingChars(t, n, v);
      DigitCharRange(v);
    }
  }

  /** The digit characters of a day number, as the %d alternatives test them. */
  lemma DigitCharRange(v: nat)
    requires 1 <= v <= 31
    ensures v / 10 == 3 <==> DigitChar(v / 10) == '3'
    ensures 1 <= v / 10 <= 2 <==> InRange(DigitChar(v / 10), '1', '2')
    ensures v / 10 == 0 <==> DigitChar(v / 10) == '0'
    ensures v / 10 == 3 ==> InRange(DigitChar(v % 10), '0', '1')
    ensures v / 10 == 0 ==> InRange(DigitChar(v % 10), '1', '9')
    ensures v < 10 ==> InRange(DigitChar(v), '1', '9')
    ensures DigitValue(DigitChar(v % 10)) == v % 10 && DigitValue(DigitChar(v / 10)) == v / 10
  {
  }

  /** One or two leading digits: their value, and the spellings they are. */
  lemma LeadingDigits(t: string, n: nat)
    requires 1 <= n <= 2 && n <= |t| && IsDigit(t[0]) && (n == 2 ==> IsDigit(t[1]))
    ensures AllDigits(t[..n])
    ensures n == 1 ==> DigitsValue(t[..1]) == DigitValue(t[0]) && t[..1] == NatDecimal(DigitValue(t[0]))
    ensures n == 2 ==> DigitsValue(t[..2]) == DigitValue(t[0]) * 10 + DigitValue(t[1])
    ensures n == 2 ==> t[..2] == Padded(DigitValue(t[0]) * 10 + DigitValue(t[1]), 2)
  {
    if n == 1 {
      assert t[..1] == [DigitChar(DigitValue(t[0]))];
      assert t[..1][..0] == [];
    } else {
      TwoDigitsValue(t[..2]);
      PaddedOfDigits(t[..2]);
    }
  }

  /** datetime.strptime(s, "%Y-%m-%d"), keeping only the date. */
  function ParseIsoDate(s: string): (r: Result<Date, DateFailure>)
    ensures r.Success? ==> ValidDate(r.value)
    ensures r.Success? ==> |s| >= 5 && AllDigits(s[..4]) && r.value.year == DigitsValue(s[..4])
    ensures r.Failure? ==> !r.error.EndBeforeStart?
  {
    if |s| < 5 || !AllDigits(s[..4]) || s[4] != '-' then Failure(NoMatch(s))
    else
      match MonthToken(s[5..])
      case None => Failure(NoMatch(s))
      case Some((month, mlen)) =>
        var at := 5 + mlen + 1;
        match DayToken(s[at..])
        case None => Failure(NoMatch(s))
        case Some((day, dlen)) =>
          var year := DigitsValue(s[..4]);
          DigitsValueBound(s[..4]);
          if at + dlen < |s| then Failure(Unconverted(s[at + dlen..]))
          else if year < MinYear then Failure(YearOutOfRange(year))
          else if day > DaysInMonth(year, month) then Failure(DayOutOfRange)
          else Success(Date(year, month, day))
  }

  /** The canonical spelling YYYY-MM-DD of a date. */
  function FormatIsoDate(d: Date): (s: string)
    requires ValidDate(d)
    ensures |s| == 10 && s[4] == '-' && s[7] == '-'
  {
    Padded(d.year, 4) + "-" + Padded(d.month, 2) + "-" + Padded(d.day, 2)
  }

  /** Every date datetime can hold is accepted in its canonical spelling and
      read back unchanged. */
  lemma ParseFormatRoundTrip(d: Date)
    requires ValidDate(d)
    ensures ParseIsoDate(FormatIsoDate(d)) == Success(d)
  {
    ParseSpelled(d.year, d.month, d.day, Padded(d.month, 2), Padded(d.day, 2));
  }

  /** `s` is one of the spellings strptime accepts for `d`: four year digits,
      then month and day each in one of the forms %m and %d allow. */
  ghost predicate SpellsDate(s: string, d: Date) {
    && 0 <= d.year
    && exists mt, dt :: MonthSpelled(mt, d.month) && DaySpelled(dt, d.day)
         && s == Padded(d.year, 4) + "-" + mt + "-" + dt
  }

  /** A month spelling followed by '-' is read as that month, whatever follows. */
  lemma MonthTokenOf(mt: string, m: nat, rest: string)
    requires 1 <= m <= 12 && MonthSpelled(mt, m)
    ensures MonthToken(mt + "-" + rest) == Some((m, |mt|))
  {
    var t := mt + "-" + rest;
    PaddedTwo(m);
    assert DigitChar(0) == '0' && DigitChar(1) == '1';
    if m < 10 && mt == NatDecimal(m) {
      assert t[0] == DigitChar(m) && t[1] == '-';
    } else {
      assert t[0] == DigitChar(m / 10) && t[1] == DigitChar(m % 10) && t[2] == '-';
    }
  }

  /** A day spelling is read as that day: at the end of the text, and
      before further text unless a one-digit day is followed by a digit. */
  lemma DayTokenOf(dt: string, day: nat, rest: string)
    requires 1 <= day <= 31 && DaySpelled(dt, day)
    requires rest == [] || |dt| == 2 || !IsDigit(rest[0])
    ensures DayToken(dt + rest) == Some((day, |dt|))
  {
    var t := dt + rest;
    PaddedTwo(day);
    assert DigitChar(0) == '0' && DigitChar(1) == '1' && DigitChar(2) == '2' && DigitChar(3) == '3';
    if dt == Padded(day, 2) || (10 <= day && dt == NatDecimal(day)) {
      assert t[0] == DigitChar(day / 10) && t[1] == DigitChar(day % 10);
    } else if dt == NatDecimal(day) {
      assert t[0] == DigitChar(day);
      assert |t| > 1 ==> t[1] == rest[0];
    } else {
      assert t[0] == ' ' && t[1] == DigitChar(day);
    }
  }

  /** What strptime makes of a spelled-out year, month and day followed by
      `rest`: leftover text is refused first, then year 0, then a day the
      month lacks; anything else is that date. */
  lemma ParseParts(y: nat, m: nat, day: nat, mt: string, dt: string, rest: string)
    requires y < 10000 && 1 <= m <= 12 && 1 <= day <= 31
    requires MonthSpelled(mt, m) && DaySpelled(dt, day)
    requires rest == [] || |dt| == 2 || !IsDigit(rest[0])
    ensures ParseIsoDate(Padded(y, 4) + "-" + mt + "-" + dt + rest) ==
      if rest != [] then Failure(Unconverted(rest))
      else if y < MinYear then Failure(YearOutOfRange(y))
      else if day > DaysInMonth(y, m) then Failure(DayOutOfRange)
      else Success(Date(y, m, day))
  {
    var s := Padded(y, 4) + "-" + mt + "-" + dt + rest;
    DateTextSplit(Padded(y, 4), mt, dt, rest);
    ParseSplit(s, y, m, day, mt, dt, rest);
  }

  /** Where the year, the month and what follows it lie in a date text. */
  lemma DateTextSplit(year: string, mt: string, dt: string, rest: string)
    requires |year| == 4
    ensures var s := year + "-" + mt + "-" + dt + rest;
      |s| >= 5 && s[..4] == year && s[4] == '-' && s[5..] == mt + "-" + (dt + rest)
  {
    var s := year + "-" + mt + "-" + dt + rest;
    assert s == year + ("-" + (mt + "-" + (dt + rest)));
  }

  /** ParseParts for a text that ends with the day. */
  lemma ParseSpelled(y: nat, m: nat, day: nat, mt: string, dt: string)
    requires y < 10000 && 1 <= m <= 12 && 1 <= day <= 31
    requires MonthSpelled(mt, m) && DaySpelled(dt, day)
    ensures ParseIsoDate(Padded(y, 4) + "-" + mt + "-" + dt) ==
      if y < MinYear then Failure(YearOutOfRange(y))
      else if day > DaysInMonth(y, m) then Failure(DayOutOfRange)
      else Success(Date(y, m, day))
  {
    var s := Padded(y, 4) + "-" + mt + "-" + dt;
    ParseParts(y, m, day, mt, dt, []);
    assert s + [] == s;
  }

  /** ParseParts, once the text is known to split into its parts. */
  lemma ParseSplit(s: string, y: nat, m: nat, day: nat, mt: string, dt: string, rest: string)
    requires y < 10000 && 1 <= m <= 12 && 1 <= day <= 31
    requires MonthSpelled(mt, m) && DaySpelled(dt, day)
    requires rest == [] || |dt| == 2 || !IsDigit(rest[0])
    requires |s| >= 5 && s[..4] == Padded(y, 4) && s[4] == '-' && s[5..] == mt + "-" + (dt + rest)
    ensures ParseIsoDate(s) ==
      if rest != [] then Failure(Unconverted(rest))
      else if y < MinYear then Failure(YearOutOfRange(y))
      else if day > DaysInMonth(y, m) then Failure(DayOutOfRange)
      else Success(Date(y, m, day))
  {
    assert Pow10(4) == 10000;
    PaddedRoundTrip(y, 4);
    MonthTokenOf(mt, m, dt + rest);
    var at := 5 + |mt| + 1;
    DropPrefix(s, 5, mt + "-", dt + rest);
    DayTokenOf(dt, day, rest);
    DropPrefix(s, at, dt, rest);
  }

  /** Dropping a known first part from a suffix of `s` leaves the rest. */
  lemma DropPrefix(s: string, k: nat, a: string, b: string)
    requires k <= |s| && s[k..] == a + b
    ensures k + |a| <= |s| && s[k + |a|..] == b
  {
    assert s[k + |a|..] == s[k..][|a|..];
  }

  /** Exactly the spellings of valid dates are accepted, each as the date it
      spells: every other text, and every spelling of a date the calendar
      lacks, is refused. */
  lemma ParseIsoDateExact(s: string, d: Date)
    ensures ParseIsoDate(s) == Success(d) <==> ValidDate(d) && SpellsDate(s, d)
  {
    if ParseIsoDate(s) == Success(d) {
      AcceptedIsSpelled(s);
    }
    if ValidDate(d) && SpellsDate(s, d) {
      var mt, dt :| MonthSpelled(mt, d.month) && DaySpelled(dt, d.day)
        && s == Padded(d.year, 4) + "-" + mt + "-" + dt;
      ParseSpelled(d.year, d.month, d.day, mt, dt);
    }
  }

  /** An accepted text is a spelling of the date it is read as. */
  lemma AcceptedIsSpelled(s: string)
    requires ParseIsoDate(s).Success?
    ensures SpellsDate(s, ParseIsoDate(s).value)
  {
    var d := ParseIsoDate(s).value;
    var mlen := MonthToken(s[5..]).value.1;
    var at := 5 + mlen + 1;
    var dlen := DayToken(s[at..]).value.1;
    assert at + dlen == |s|;
    PaddedOfDigits(s[..4]);
    var mt, dt := s[5..][..mlen], s[at..][..dlen];
    assert MonthSpelled(mt, d.month) && DaySpelled(dt, d.day);
    DateTextJoin(s, mlen);
  }

  /** A text cut at the two dashes is the concatenation of its pieces. */
  lemma DateTextJoin(s: string, mlen: nat)
    requires |s| >= 5 + mlen + 1 && s[4] == '-' && s[5 + mlen] == '-'
    ensures s == s[..4] + "-" + s[5..][..mlen] + "-" + s[5 + mlen + 1..]
  {
    assert s[5..][..mlen] == s[5..5 + mlen];
  }

  /** Month and day need no zero padding: any valid date written without
      padding is read as that date. */
  lemma UnpaddedAccepted(d: Date)
    requires ValidDate(d)
    ensures ParseIsoDate(Padded(d.year, 4) + "-" + NatDecimal(d.month) + "-" + NatDecimal(d.day)) == Success(d)
  {
    ParseSpelled(d.year, d.month, d.day, NatDecimal(d.month), NatDecimal(d.day));
  }

  /** A well-formed spelling of a day the month does not have, such as
      2023-02-29, raises "day is out of range for month". */
  lemma NonexistentDayRefused(y: int, m: int, day: int)
    requires MinYear <= y <= MaxYear && 1 <= m <= 12 && DaysInMonth(y, m) < day <= 31
    ensures ParseIsoDate(Padded(y, 4) + "-" + Padded(m, 2) + "-" + Padded(day, 2)) == Failure(DayOutOfRange)
  {
    ParseSpelled(y, m, day, Padded(m, 2), Padded(day, 2));
  }

  /** Year 0000 matches the format but raises "year 0 is out of range". */
  lemma YearZeroRefused(m: nat, day: nat)
    requires 1 <= m <= 12 && 1 <= day <= 31
    ensures ParseIsoDate("0000" + "-" + Padded(m, 2) + "-" + Padded(day, 2)) == Failure(YearOutOfRange(0))
  {
    ZeroYearDigits();
    ParseSpelled(0, m, day, Padded(m, 2), Padded(day, 2));
  }

  lemma ZeroYearDigits()
    ensures Padded(0, 4) == "0000"
  {
    assert DigitChar(0) == '0';
    assert Padded(0, 1) == "0" && Padded(0, 2) == "00" && Padded(0, 3) == "000";
  }

  /** Text after a complete date, as in 2024-01-01x, raises
      "unconverted data remains" with the leftover text. */
  lemma TrailingTextRefused(d: Date, rest: string)
    requires ValidDate(d) && rest != []
    ensures ParseIsoDate(FormatIsoDate(d) + rest) == Failure(Unconverted(rest))
  {
    ParseParts(d.year, d.month, d.day, Padded(d.month, 2), Padded(d.day, 2), rest);
  }
}

=== FILE: loading_overlay.dfy ===
/** The pure computations of the loading overlay
    (frontend/src/components/LoadingOverlay.new.jsx): the five-step table,
    the reduce that picks the active step from the reported progress, the
    per-step flags, icon and bar width, and the progress text. Polling,
    timers, tips and markup are not part of this module. */
module LoadingOverlay {
  import opened Wrappers
  import opened Text

  /** One row of the step table; the step covers progress from `lower` to `upper`. */
  datatype Step = Step(id: string, text: string, lower: int, upper: int)

  /** Each step's range is non-empty and ends where the next one begins. */
  predicate Contiguous(steps: seq<Step>) {
    && (forall i :: 0 <= i < |steps| ==> steps[i].lower < steps[i].upper)
    && (forall i :: 1 <= i < |steps| ==> steps[i - 1].upper == steps[i].lower)
  }

  /** The loadingSteps table. */
  function LoadingSteps(): (steps: seq<Step>)
    ensures |steps| == 5 && Contiguous(steps)
    ensures steps[0].lower == 0 && steps[4].upper == 100
    ensures steps[0].id == "initializing"
  {
    [ Step("initializing", "Initializing", 0, 10),
      Step("location", "Fetching location details", 10, 30),
      Step("weather", "Analyzing weather conditions", 30, 50),
      Step("generating", "Generating your perfect itinerary", 50, 90),
      Step("finalizing", "Finalizing details", 90, 100) ]
  }

  /** The task status as the backend reports it. A missing progress is the
      JSON null, which `|| 0` and arithmetic both read as 0. */
  datatype ProgressData = ProgressData(status: string, progress: Option<int>, error: Option<string>)

  /** `progressData.progress || 0` */
  function EffectiveProgress(progress: Option<int>): (p: int)
    ensures p == 0 <==> progress.None? || progress == Some(0)
    ensures p != 0 ==> progress == Some(p)
  {
    if progress.Some? then progress.value else 0
  }

  /** The reduce callback applied to steps[index..], starting from `activeIndex`. */
  function ReduceActive(steps: seq<Step>, progress: int, index: nat, activeIndex: nat): (k: nat)
    requires index <= |steps|
    ensures k == activeIndex || (index <= k < |steps| && progress >= steps[k].lower)
    decreases |steps| - index
  {
    if index == |steps| then activeIndex
    else ReduceActive(steps, progress, index + 1,
                      if progress >= steps[index].lower then index else activeIndex)
  }

  /** `k` is the last step whose lower bound the progress has reached, or 0 when none is reached. */
  ghost predicate IsLastReached(steps: seq<Step>, progress: int, k: int) {
    && 0 <= k < |steps|
    && (progress >= steps[k].lower || k == 0)
    && (forall j :: k < j < |steps| ==> progress < steps[j].lower)
  }

  /** The reduce finds the last reached step, given that its start value
      already does so for the steps before `index`. */
  lemma {:induction false} ReduceActiveFindsLastReached(steps: seq<Step>, progress: int, index: nat, activeIndex: nat)
    requires index <= |steps| && activeIndex < |steps|
    requires activeIndex == 0 || (activeIndex < index && progress >= steps[activeIndex].lower)
    requires forall j :: activeIndex < j < index ==> progress < steps[j].lower
    ensures IsLastReached(steps, progress, ReduceActive(steps, progress, index, activeIndex))
    decreases |steps| - index
  {
    if index < |steps| {
      var next := if progress >= steps[index].lower then index else activeIndex;
      ReduceActiveFindsLastReached(steps, progress, index + 1, next);
    }
  }

  /** activeStepIndex */
  function ActiveStepIndex(progress: Option<int>): (k: nat)
    ensures k < 5
    ensures IsLastReached(LoadingSteps(), EffectiveProgress(progress), k)
  {
    ReduceActiveFindsLastReached(LoadingSteps(), EffectiveProgress(progress), 0, 0);
    ReduceActive(LoadingSteps(), EffectiveProgress(progress), 0, 0)
  }

  /** There is only one last reached step. */
  lemma LastReachedUnique(steps: seq<Step>, progress: int, k: int, m: int)
    requires IsLastReached(steps, progress, k) && IsLastReached(steps, progress, m)
    ensures k == m
  {
  }

  /** More progress never moves the active step back. */
  lemma ActiveStepMonotone(p: Option<int>, q: Option<int>)
    requires EffectiveProgress(p) <= EffectiveProgress(q)
    ensures ActiveStepIndex(p) <= ActiveStepIndex(q)
  {
  }

  /** Within 0..99 the progress lies in the active step's own range; from 100 on the last step is active. */
  lemma ActiveStepCoversProgress(progress: Option<int>)
    ensures var p, k := EffectiveProgress(progress), ActiveStepIndex(progress);
      && (0 <= p < 100 ==> LoadingSteps()[k].lower <= p < LoadingSteps()[k].upper)
      && (p >= 100 ==> k == 4)
      && (p < 0 ==> k == 0)
  {
    var steps, p, k := LoadingSteps(), EffectiveProgress(progress), ActiveStepIndex(progress);
    if k < 4 {
      assert steps[(k + 1) - 1].upper == steps[k + 1].lower;
    }
  }

  /** A missing or zero progress shows the "initializing" step. */
  lemma NoProgressInitializing(data: ProgressData)
    requires data.progress.None? || data.progress == Some(0)
    ensures ActiveStepIndex(data.progress) == 0
    ensures LoadingSteps()[ActiveStepIndex(data.progress)].id == "initializing"
  {
    assert LoadingSteps()[1].lower > 0;
  }

  // ---------------------------------------------------------------------
  // Per-step view

  datatype Icon = CheckIcon | ErrorIcon | SpinnerIcon | OwnIcon

  /** What the overlay shows for one step; `bar` is the width of its
      progress bar, present only on the active step. */
  datatype StepView = StepView(isActive: bool, isCompleted: bool, isFailed: bool, icon: Icon, bar: Option<real>)

  /** Math.min(100, Math.max(0, x)) */
  function ClampPercent(x: real): (w: real)
    ensures 0.0 <= w <= 100.0
    ensures 0.0 <= x <= 100.0 ==> w == x
    ensures x < 0.0 ==> w == 0.0
    ensures x > 100.0 ==> w == 100.0
  {
    if x > 100.0 then 100.0 else if x < 0.0 then 0.0 else x
  }

  /** How far, in percent, `progress` is through `step`'s range. */
  function StepPercent(step: Step, progress: int): (pct: real)
    requires step.lower < step.upper
    ensures pct == 0.0 <==> progress == step.lower
    ensures pct < 0.0 <==> progress < step.lower
    ensures progress == step.upper ==> pct == 100.0
    ensures pct * (step.upper - step.lower) as real == (progress - step.lower) as real * 100.0
  {
    var a, b := (progress - step.lower) as real, (step.upper - step.lower) as real;
    ShareSign(a, b);
    (a / b) * 100.0
  }

  /** A share of a positive whole, in percent, has the sign of the part and
      is 100 for the whole itself. */
  lemma ShareSign(a: real, b: real)
    requires b > 0.0
    ensures (a / b) * 100.0 == 0.0 <==> a == 0.0
    ensures (a / b) * 100.0 < 0.0 <==> a < 0.0
    ensures a == b ==> (a / b) * 100.0 == 100.0
    ensures (a / b) * 100.0 * b == a * 100.0
  {
    assert (a / b) * b == a;
  }

  /** A progress inside a step's range is shown as its exact share of that range. */
  lemma StepPercentInRange(step: Step, progress: int)
    requires step.lower <= progress <= step.upper && step.lower < step.upper
    ensures 0.0 <= StepPercent(step, progress) <= 100.0
  {
    var a, b := (progress - step.lower) as real, (step.upper - step.lower) as real;
    var x := a / b;
    assert x * b == a;
  }

  /** The body of the loadingSteps.map callback for step `index`. */
  function ViewStep(index: nat, data: ProgressData): (v: StepView)
    requires index < 5
    ensures v.isActive <==> index == ActiveStepIndex(data.progress)
    ensures v.icon == CheckIcon <==> v.isCompleted
    ensures v.icon == ErrorIcon <==> v.isFailed
    ensures v.icon == SpinnerIcon <==> v.isActive && !v.isCompleted && !v.isFailed
    ensures v.bar.Some? <==> v.isActive
    ensures v.bar.Some? ==> 0.0 <= v.bar.value <= 100.0
  {
    var step := LoadingSteps()[index];
    var active := ActiveStepIndex(data.progress);
    var isActive := index == active;
    var isCompleted := index < active || (active == index && data.status == "completed");
    var isFailed := data.status == "failed" && index == 4;
    var stepProgress :=
      if isActive then StepPercent(step, EffectiveProgress(data.progress))
      else if isCompleted then 100.0 else 0.0;
    var icon :=
      if isCompleted then CheckIcon
      else if isFailed then ErrorIcon
      else if isActive then SpinnerIcon
      else OwnIcon;
    StepView(isActive, isCompleted, isFailed, icon, if isActive then Some(ClampPercent(stepProgress)) else None)
  }

  /** The whole step list. */
  function StepViews(data: ProgressData): (views: seq<StepView>)
    ensures |views| == 5
    ensures forall i :: 0 <= i < 5 ==> views[i] == ViewStep(i, data)
  {
    seq(5, i requires 0 <= i < 5 => ViewStep(i, data))
  }

  /** Exactly one step is active, it is the active step index, and only it
      shows a bar, whose width lies in [0, 100]. */
  lemma OneActiveStep(data: ProgressData)
    ensures var views := StepViews(data);
      forall i :: 0 <= i < 5 ==>
        && (views[i].isActive <==> i == ActiveStepIndex(data.progress))
        && (views[i].bar.Some? <==> views[i].isActive)
        && (views[i].bar.Some? ==> 0.0 <= views[i].bar.value <= 100.0)
  {
  }

  /** The completed steps are exactly those before the active one, plus the
      active one itself once the task has completed; so they form a prefix. */
  lemma CompletedStepsPrefix(data: ProgressData)
    ensures var views, k := StepViews(data), ActiveStepIndex(data.progress);
      && (forall i :: 0 <= i < 5 ==>
            (views[i].isCompleted <==> i < k + (if data.status == "completed" then 1 else 0)))
      && (forall i, j :: 0 <= i < j < 5 && views[j].isCompleted ==> views[i].isCompleted)
  {
  }

  /** Only the last step can be marked failed, exactly when the status is
      'failed'; a failed step is never completed, and only a failed step
      shows the error icon. */
  lemma FailedOnlyOnLastStep(data: ProgressData)
    ensures var views := StepViews(data);
      && (forall i :: 0 <= i < 5 && views[i].isFailed ==> i == 4)
      && (views[4].isFailed <==> data.status == "failed")
      && (forall i :: 0 <= i < 5 ==> !(views[i].isFailed && views[i].isCompleted))
      && (forall i :: 0 <= i < 5 ==> (views[i].icon == ErrorIcon <==> views[i].isFailed))
  {
  }

  /** While the progress lies inside the active step's range, the bar shows
      the exact share of that range already covered. */
  lemma ActiveBarIsShareOfStep(data: ProgressData)
    requires 0 <= EffectiveProgress(data.progress) < 100
    ensures var k := ActiveStepIndex(data.progress);
      StepViews(data)[k].bar == Some(StepPercent(LoadingSteps()[k], EffectiveProgress(data.progress)))
  {
    var k := ActiveStepIndex(data.progress);
    ActiveStepCoversProgress(data.progress);
    StepPercentInRange(LoadingSteps()[k], EffectiveProgress(data.progress));
  }

  // ---------------------------------------------------------------------
  // Progress text

  const DefaultFailureText := "Failed to generate itinerary"

  /** The text under the overall progress bar. */
  function ProgressText(data: ProgressData): (t: string)
    ensures data.status == "failed" <==> StartsWithError(t)
    ensures data.status == "failed" && data.error.Some? && data.error.value != "" ==> t == "Error: " + data.error.value
    ensures data.status == "failed" && (data.error.None? || data.error.value == "") ==> t == "Error: " + DefaultFailureText
    ensures data.status != "failed" ==> t == Decimal(EffectiveProgress(data.progress)) + "%"
  {
    if data.status == "failed" then
      "Error: " + (if data.error.Some? && data.error.value != "" then data.error.value else DefaultFailureText)
    else
      var d := Decimal(EffectiveProgress(data.progress));
      assert (d + "%")[0] == d[0];
      d + "%"
  }

  predicate StartsWithError(t: string) {
    |t| >= 7 && t[..7] == "Error: "
  }

  /** The percentage shown is the progress itself: distinct progress values
      of a running task always read differently. */
  lemma ProgressTextDistinguishes(a: ProgressData, b: ProgressData)
    requires a.status != "failed" && b.status != "failed"
    requires ProgressText(a) == ProgressText(b)
    ensures EffectiveProgress(a.progress) == EffectiveProgress(b.progress)
  {
    var s, t := Decimal(EffectiveProgress(a.progress)), Decimal(EffectiveProgress(b.progress));
    assert s == ProgressText(a)[..|ProgressText(a)| - 1];
    assert t == ProgressText(b)[..|ProgressText(b)| - 1];
    DecimalInjective(EffectiveProgress(a.progress), EffectiveProgress(b.progress));
  }
}

=== FILE: prompt_generation.dfy ===
/** The itinerary prompt builder of utils/prompt_generation.py: date
    validation and the trip length, the optional weather block with its
    per-field defaults, the focus section chosen by trip purpose, and the
    fixed itinerary template. Python exceptions become `Failure` values. */
module PromptGeneration {
  import opened Wrappers
  import opened Text
  import opened Calendar
  import opened DateParsing

  /** The exceptions generate_itinerary_prompt can raise. */
  datatype PromptError =
    | InvalidDateInput(reason: DateFailure)  // ValueError, re-raised with a prefix
    | NoWeatherEntries                       // IndexError: the forecast's "weather" list is empty
    | MissingDescription                     // KeyError: its first entry has no "description"

  const ValueErrorPrefix := "Invalid date format or range: "

  /** The message the exception carries. */
  function ErrorMessage(e: PromptError): (msg: string)
    ensures StartsWith(msg, ValueErrorPrefix) <==> e.InvalidDateInput?
    ensures e.InvalidDateInput? ==> msg[|ValueErrorPrefix|..] == Detail(e.reason)
  {
    match e
    case InvalidDateInput(reason) => ValueErrorPrefix + Detail(reason)
    case NoWeatherEntries => "list index out of range"
    case MissingDescription => "'description'"
  }

  predicate StartsWith(s: string, prefix: string) {
    |prefix| <= |s| && s[..|prefix|] == prefix
  }

  predicate EndsWith(s: string, suffix: string) {
    |suffix| <= |s| && s[|s| - |suffix|..] == suffix
  }

  /** A concatenation starts with its first part and ends with its last. */
  lemma ConcatEnds(a: string, b: string, c: string)
    ensures StartsWith(a + b + c, a) && EndsWith(a + b + c, c)
    ensures StartsWith(a + b + c, a + b)
    ensures StartsWith(a + b, a)
  {
    assert (a + b + c)[..|a|] == a;
    assert (a + b + c)[|a + b|..] == c;
  }

  // ---------------------------------------------------------------------
  // Trip length

  /** The try block that parses both dates and counts the days of the trip,
      both ends included; the start date is parsed, and can fail, first. */
  function TripLength(startDate: string, endDate: string): (r: Result<int, DateFailure>)
    ensures r.Success? ==> r.value >= 1
    ensures r.Success? ==>
      && ParseIsoDate(startDate).Success? && ParseIsoDate(endDate).Success?
      && r.value == Ordinal(ParseIsoDate(endDate).value) - Ordinal(ParseIsoDate(startDate).value) + 1
    ensures ParseIsoDate(startDate).Failure? ==> r == Failure(ParseIsoDate(startDate).error)
    ensures ParseIsoDate(startDate).Success? && ParseIsoDate(endDate).Failure? ==>
      r == Failure(ParseIsoDate(endDate).error)
  {
    match ParseIsoDate(startDate)
    case Failure(why) => Failure(why)
    case Success(start) =>
      match ParseIsoDate(endDate)
      case Failure(why) => Failure(why)
      case Success(end) =>
        var numDays := Ordinal(end) - Ordinal(start) + 1;
        if numDays <= 0 then Failure(EndBeforeStart) else Success(numDays)
  }

  /** Two well-formed dates give a trip exactly when the end is not before
      the start, and a same-day trip is one day long. */
  lemma TripLengthOrdered(startDate: string, endDate: string)
    requires ParseIsoDate(startDate).Success? && ParseIsoDate(endDate).Success?
    ensures var start, end := ParseIsoDate(startDate).value, ParseIsoDate(endDate).value;
      && (TripLength(startDate, endDate).Success? <==> !Before(end, start))
      && (TripLength(startDate, endDate).Failure? ==> TripLength(startDate, endDate).error == EndBeforeStart)
      && (TripLength(startDate, endDate) == Success(1) <==> start == end)
  {
    OrdinalOrder(ParseIsoDate(startDate).value, ParseIsoDate(endDate).value);
  }

  /** Any valid date range, written canonically, has the length the day numbers give. */
  lemma TripLengthOfFormattedDates(start: Date, end: Date)
    requires ValidDate(start) && ValidDate(end) && !Before(end, start)
    ensures TripLength(FormatIsoDate(start), FormatIsoDate(end)) == Success(Ordinal(end) - Ordinal(start) + 1)
  {
    ParseFormatRoundTrip(start);
    ParseFormatRoundTrip(end);
    OrdinalOrder(start, end);
  }

  // ---------------------------------------------------------------------
  // Weather context

  /** The forecast dictionary, reduced to the keys the builder reads.
      `otherKeys` counts any further keys, which only make it non-empty. */
  datatype Forecast = Forecast(
    weather: Option<seq<Condition>>,
    main: Option<Readings>,
    wind: Option<WindReading>,
    otherKeys: nat)

  datatype Condition = Condition(description: Option<string>)
  datatype Readings = Readings(temp: Option<string>, humidity: Option<string>)
  datatype WindReading = WindReading(speed: Option<string>)

  /** An empty dictionary, which Python treats as false. */
  predicate IsEmpty(f: Forecast) {
    f.weather.None? && f.main.None? && f.wind.None? && f.otherKeys == 0
  }

  /** weather_forecast.get("weather", [{"description": "clear"}])[0]["description"] */
  function Conditions(f: Forecast): (r: Result<string, PromptError>)
    ensures f.weather.None? ==> r == Success("clear")
    ensures r.Failure? <==> f.weather.Some? && (|f.weather.value| == 0 || f.weather.value[0].description.None?)
    ensures r.Success? && f.weather.Some? ==> Some(r.value) == f.weather.value[0].description
  {
    match f.weather
    case None => Success("clear")
    case Some(entries) =>
      if |entries| == 0 then Failure(NoWeatherEntries)
      else match entries[0].description
        case None => Failure(MissingDescription)
        case Some(text) => Success(text)
  }

  const WeatherHeading := "\n        Weather Forecast:\n"

  /** The weather block with its four values filled in, one line each. */
  function WeatherLines(conditions: string, temp: string, humidity: string, wind: string): (text: string)
    ensures StartsWith(text, WeatherHeading)
  {
    var rest := ("        - Conditions: " + conditions + "\n")
      + ("        - Temperature: " + temp + "\U{00B0}C\n")
      + ("        - Humidity: " + humidity + "%\n")
      + ("        - Wind: " + wind + " m/s\n")
      + "        ";
    ConcatEnds(WeatherHeading, rest, "");
    WeatherHeading + rest
  }

  /** The weather context: empty without a forecast, else the weather block,
      each reading taken from the forecast or, where missing, its default. */
  function WeatherContext(forecast: Option<Forecast>): (r: Result<string, PromptError>)
    ensures r == Success("") <==> forecast.None? || IsEmpty(forecast.value)
    ensures r.Failure? <==> forecast.Some? && Conditions(forecast.value).Failure?
    ensures r.Failure? ==> r == Conditions(forecast.value)
    ensures r.Success? && r.value != "" ==> StartsWith(r.value, WeatherHeading)
  {
    if forecast.None? || IsEmpty(forecast.value) then Success("")
    else
      var f := forecast.value;
      match Conditions(f)
      case Failure(e) => Failure(e)
      case Success(conditions) =>
        var main := if f.main.Some? then f.main.value else Readings(None, None);
        var wind := if f.wind.Some? then f.wind.value else WindReading(None);
        var temp := if main.temp.Some? then main.temp.value else "20";
        var humidity := if main.humidity.Some? then main.humidity.value else "N/A";
        var speed := if wind.speed.Some? then wind.speed.value else "N/A";
        Success(WeatherLines(conditions, temp, humidity, speed))
  }

  /** `part` occurs somewhere in `s`. */
  ghost predicate Contains(s: string, part: string) {
    exists pre, post :: s == pre + part + post
  }

  lemma ContainsLast(s: string, part: string)
    ensures Contains(s + part, part)
  {
    assert s + part == s + part + [];
  }

  lemma ContainsExtend(s: string, part: string, more: string)
    requires Contains(s, part)
    ensures Contains(s + more, part)
  {
    var pre, post :| s == pre + part + post;
    assert s + more == pre + part + (post + more);
  }

  /** Each line of a weather block shows the value it was given. */
  lemma WeatherLinesShow(conditions: string, temp: string, humidity: string, wind: string)
    ensures var text := WeatherLines(conditions, temp, humidity, wind);
      && Contains(text, "        - Conditions: " + conditions + "\n")
      && Contains(text, "        - Temperature: " + temp + "\U{00B0}C\n")
      && Contains(text, "        - Humidity: " + humidity + "%\n")
      && Contains(text, "        - Wind: " + wind + " m/s\n")
  {
    var p1 := "        - Conditions: " + conditions + "\n";
    var p2 := "        - Temperature: " + temp + "\U{00B0}C\n";
    var p3 := "        - Humidity: " + humidity + "%\n";
    var p4 := "        - Wind: " + wind + " m/s\n";
    var tail := "        ";
    var s1 := WeatherHeading + p1;
    var s2 := s1 + p2;
    var s3 := s2 + p3;
    var s4 := s3 + p4;
    assert WeatherLines(conditions, temp, humidity, wind) == s4 + tail by {
      assert WeatherHeading + (p1 + p2 + p3 + p4 + tail) == s4 + tail;
    }
    ContainsLast(WeatherHeading, p1);
    ContainsExtend(s1, p1, p2);
    ContainsExtend(s2, p1, p3);
    ContainsExtend(s3, p1, p4);
    ContainsExtend(s4, p1, tail);
    ContainsLast(s1, p2);
    ContainsExtend(s2, p2, p3);
    ContainsExtend(s3, p2, p4);
    ContainsExtend(s4, p2, tail);
    ContainsLast(s2, p3);
    ContainsExtend(s3, p3, p4);
    ContainsExtend(s4, p3, tail);
    ContainsLast(s3, p4);
    ContainsExtend(s4, p4, tail);
  }

  /** The weather block of a readable forecast shows the forecast's
      conditions, temperature, humidity and wind speed where present, and
      "clear", 20, "N/A" and "N/A" where missing, each field on its own. */
  lemma WeatherBlockShowsReadings(f: Forecast)
    requires !IsEmpty(f) && Conditions(f).Success?
    ensures WeatherContext(Some(f)).Success?
    ensures var text := WeatherContext(Some(f)).value;
      && Contains(text, "        - Conditions: "
           + (if f.weather.None? then "clear" else f.weather.value[0].description.value) + "\n")
      && Contains(text, "        - Temperature: "
           + (if f.main.Some? && f.main.value.temp.Some? then f.main.value.temp.value else "20") + "\U{00B0}C\n")
      && Contains(text, "        - Humidity: "
           + (if f.main.Some? && f.main.value.humidity.Some? then f.main.value.humidity.value else "N/A") + "%\n")
      && Contains(text, "        - Wind: "
           + (if f.wind.Some? && f.wind.value.speed.Some? then f.wind.value.speed.value else "N/A") + " m/s\n")
  {
    var conditions := if f.weather.None? then "clear" else f.weather.value[0].description.value;
    var temp := if f.main.Some? && f.main.value.temp.Some? then f.main.value.temp.value else "20";
    var humidity := if f.main.Some? && f.main.value.humidity.Some? then f.main.value.humidity.value else "N/A";
    var speed := if f.wind.Some? && f.wind.value.speed.Some? then f.wind.value.speed.value else "N/A";
    assert WeatherContext(Some(f)) == Success(WeatherLines(conditions, temp, humidity, speed));
    WeatherLinesShow(conditions, temp, humidity, speed);
  }

  /** The forecast with every key the builder reads present, holding its
      default where it was missing. */
  function WithDefaults(f: Forecast): (g: Forecast)
    ensures g.weather.Some? && g.main.Some? && g.wind.Some?
    ensures g.main.value.temp.Some? && g.main.value.humidity.Some? && g.wind.value.speed.Some?
  {
    var main := if f.main.Some? then f.main.value else Readings(None, None);
    var wind := if f.wind.Some? then f.wind.value else WindReading(None);
    Forecast(
      if f.weather.None? then Some([Condition(Some("clear"))]) else f.weather,
      Some(Readings(
        if main.temp.Some? then main.temp else Some("20"),
        if main.humidity.Some? then main.humidity else Some("N/A"))),
      Some(WindReading(if wind.speed.Some? then wind.speed else Some("N/A"))),
      f.otherKeys)
  }

  /** A missing field renders exactly as if it had been given its default:
      conditions "clear", temperature 20, humidity and wind "N/A". */
  lemma MissingFieldsDefault(f: Forecast)
    requires !IsEmpty(f)
    ensures WeatherContext(Some(f)) == WeatherContext(Some(WithDefaults(f)))
  {
  }

  /** A forecast holding none of the keys the builder reads still produces
      a weather block, made entirely of defaults. */
  lemma AllDefaults(otherKeys: nat)
    requires otherKeys > 0
    ensures WeatherContext(Some(Forecast(None, None, None, otherKeys)))
      == Success(WeatherLines("clear", "20", "N/A", "N/A"))
  {
  }

  // ---------------------------------------------------------------------
  // Focus section

  datatype Focus = HolidayFocus | BusinessFocus | GeneralFocus(purpose: string)

  /** The branch taken on trip_purpose.lower(). */
  function FocusOf(tripPurpose: string): (f: Focus)
    ensures f.HolidayFocus? <==> Lower(tripPurpose) == "holiday"
    ensures f.BusinessFocus? <==> Lower(tripPurpose) == "business"
    ensures f.GeneralFocus? ==> f.purpose == tripPurpose
  {
    if Lower(tripPurpose) == "holiday" then HolidayFocus
    else if Lower(tripPurpose) == "business" then BusinessFocus
    else GeneralFocus(tripPurpose)
  }

  const FocusHead := "\nFocus on:\n- "
  const GeneralFocusTail := "-specific activities\n- Unique local experiences\n- Customized to traveler's interests\n- Balanced schedule with downtime\n"

  /** The section appended for a focus; every one opens with "Focus on:". */
  function FocusText(f: Focus): (t: string)
    ensures StartsWith(t, FocusHead)
    ensures f.GeneralFocus? ==> StartsWith(t, FocusHead + f.purpose)
  {
    match f
    case HolidayFocus =>
      ConcatEnds(FocusHead, HolidayFocusItems, "");
      HolidayFocusText
    case BusinessFocus =>
      ConcatEnds(FocusHead, BusinessFocusItems, "");
      BusinessFocusText
    case GeneralFocus(purpose) =>
      ConcatEnds(FocusHead, purpose, GeneralFocusTail);
      FocusHead + purpose + GeneralFocusTail
  }

  /** Different focus choices give different sections, so the section in a
      prompt tells which branch was taken. */
  lemma FocusTextInjective(f: Focus, g: Focus)
    requires FocusText(f) == FocusText(g)
    ensures f == g
  {
    var t := FocusText(f);
    if f.GeneralFocus? && g.GeneralFocus? {
      var h := |FocusHead|;
      assert f.purpose == t[h..h + |f.purpose|];
      assert g.purpose == t[h..h + |g.purpose|];
    } else if f != g {
      FocusTextEnding(f);
      FocusTextEnding(g);
      assert false;
    }
  }

  /** The next-to-last character of a focus section: the general section ends
      "downtime", the other two end "options" and "opportunities". */
  lemma FocusTextEnding(f: Focus)
    ensures |FocusText(f)| >= 2
    ensures FocusText(f)[|FocusText(f)| - 2] == if f.GeneralFocus? then 'e' else 's'
  {
    if f.GeneralFocus? {
      var t := FocusText(f);
      assert t == (FocusHead + f.purpose) + GeneralFocusTail;
      assert t[|t| - 2] == GeneralFocusTail[|GeneralFocusTail| - 2];
    }
  }

  // ---------------------------------------------------------------------
  // Prompt assembly

  const OpeningHead := "You are an expert travel planner creating a detailed "

  /** The opening line and the purpose line of every prompt. */
  function Opening(numDays: int, location: string, startDate: string, endDate: string, tripPurpose: string): (o: string)
    ensures StartsWith(o, OpeningHead + Decimal(numDays))
    ensures StartsWith(o, OpeningHead + Decimal(numDays)
      + ("-day itinerary for " + location + " from " + startDate + " to " + endDate + ".\n    \n"))
    ensures EndsWith(o, "Trip Purpose: " + Capitalize(tripPurpose))
    ensures |o| == |OpeningHead + Decimal(numDays)
      + ("-day itinerary for " + location + " from " + startDate + " to " + endDate + ".\n    \n")|
      + |"Trip Purpose: " + Capitalize(tripPurpose)|
  {
    var middle := "-day itinerary for " + location + " from " + startDate + " to " + endDate + ".\n    \n";
    var purposeLine := "Trip Purpose: " + Capitalize(tripPurpose);
    ConcatEnds(OpeningHead + Decimal(numDays), middle, purposeLine);
    OpeningHead + Decimal(numDays) + middle + purposeLine
  }

  /** The prompt text once the day count and the weather context are known:
      opening, weather context, focus section, itinerary template. */
  function AssemblePrompt(
    numDays: int, location: string, startDate: string, endDate: string, tripPurpose: string,
    weatherContext: string): (p: string)
    ensures StartsWith(p, Opening(numDays, location, startDate, endDate, tripPurpose))
    ensures StartsWith(p, Opening(numDays, location, startDate, endDate, tripPurpose) + ("\n\n" + weatherContext + "\n"))
    ensures EndsWith(p, FocusText(FocusOf(tripPurpose)) + ItineraryStructure)
    ensures |p| == |Opening(numDays, location, startDate, endDate, tripPurpose)| + |weatherContext| + 3
      + |FocusText(FocusOf(tripPurpose)) + ItineraryStructure|
  {
    var opening := Opening(numDays, location, startDate, endDate, tripPurpose);
    var tail := FocusText(FocusOf(tripPurpose)) + ItineraryStructure;
    ConcatEnds(opening, "\n\n" + weatherContext + "\n", tail);
    opening + ("\n\n" + weatherContext + "\n") + tail
  }

  /** generate_itinerary_prompt: validate the dates, render the weather
      context, then the opening, the focus section and the itinerary template. */
  function GenerateItineraryPrompt(
    location: string, startDate: string, endDate: string, tripPurpose: string,
    weatherForecast: Option<Forecast>): (r: Result<string, PromptError>)
    ensures r.Failure? && r.error.InvalidDateInput? <==> TripLength(startDate, endDate).Failure?
    ensures TripLength(startDate, endDate).Failure? ==>
      r == Failure(InvalidDateInput(TripLength(startDate, endDate).error))
    ensures r.Failure? && r.error.InvalidDateInput? ==> StartsWith(ErrorMessage(r.error), ValueErrorPrefix)
    ensures r.Success? <==> TripLength(startDate, endDate).Success? && WeatherContext(weatherForecast).Success?
    ensures r.Success? ==>
      StartsWith(r.value, Opening(TripLength(startDate, endDate).value, location, startDate, endDate, tripPurpose))
    ensures r.Success? ==>
      StartsWith(r.value, Opening(TripLength(startDate, endDate).value, location, startDate, endDate, tripPurpose)
        + ("\n\n" + WeatherContext(weatherForecast).value + "\n"))
    ensures r.Success? ==> EndsWith(r.value, FocusText(FocusOf(tripPurpose)) + ItineraryStructure)
    ensures r.Success? ==>
      |r.value| == |Opening(TripLength(startDate, endDate).value, location, startDate, endDate, tripPurpose)|
        + |WeatherContext(weatherForecast).value| + 3 + |FocusText(FocusOf(tripPurpose)) + ItineraryStructure|
    ensures TripLength(startDate, endDate).Success? && WeatherContext(weatherForecast).Failure? ==>
      r == Failure(WeatherContext(weatherForecast).error)
  {
    match TripLength(startDate, endDate)
    case Failure(why) => Failure(InvalidDateInput(why))
    case Success(numDays) =>
      match WeatherContext(weatherForecast)
      case Failure(e) => Failure(e)
      case Success(weatherContext) =>
        Success(AssemblePrompt(numDays, location, startDate, endDate, tripPurpose, weatherContext))
  }

  /** An end date before the start date is refused with the builder's own
      message, whatever the other arguments. */
  lemma EndBeforeStartRefused(
    location: string, startDate: string, endDate: string, tripPurpose: string,
    weatherForecast: Option<Forecast>)
    requires ParseIsoDate(startDate).Success? && ParseIsoDate(endDate).Success?
    requires Before(ParseIsoDate(endDate).value, ParseIsoDate(startDate).value)
    ensures var r := GenerateItineraryPrompt(location, startDate, endDate, tripPurpose, weatherForecast);
      && r == Failure(InvalidDateInput(EndBeforeStart))
      && ErrorMessage(r.error) == ValueErrorPrefix + "End date must be after start date"
  {
    TripLengthOrdered(startDate, endDate);
  }

  /** With a valid date range (see TripLengthOrdered) and no forecast the prompt always succeeds,
      and it is assembled with an empty weather context. */
  lemma NoForecastSucceeds(
    location: string, startDate: string, endDate: string, tripPurpose: string)
    requires TripLength(startDate, endDate).Success?
    ensures GenerateItineraryPrompt(location, startDate, endDate, tripPurpose, None)
      == Success(AssemblePrompt(TripLength(startDate, endDate).value, location, startDate, endDate, tripPurpose, ""))
  {
  }

  /** The capitalised purpose in the header names the same trip type, ignoring
      case, as the one the focus section was chosen by. */
  lemma HeaderPurposeMatchesFocus(tripPurpose: string)
    ensures FocusOf(Capitalize(tripPurpose)).HolidayFocus? <==> FocusOf(tripPurpose).HolidayFocus?
    ensures FocusOf(Capitalize(tripPurpose)).BusinessFocus? <==> FocusOf(tripPurpose).BusinessFocus?
  {
    CapitalizeKeepsLower(tripPurpose);
  }

  /** The holiday and business sections: the shared heading, then their items. */
  const HolidayFocusText := FocusHead + HolidayFocusItems
  const BusinessFocusText := FocusHead + BusinessFocusItems

  const HolidayFocusItems := @"Leisure and relaxation activities
- Must-see tourist attractions
- Local cultural experiences
- Scenic spots and photo opportunities
- Quality dining options
"

  const BusinessFocusItems := @"Business-friendly accommodations
- Reliable workspaces and WiFi spots
- Professional meeting venues
- Business-appropriate dining
- Evening networking opportunities
"

  /** The daily-structure template and guidelines every prompt ends with. */
  const ItineraryStructure := @"
Create a detailed daily itinerary with the following structure for each day:

---
**Day X: [Day of Week, Date]**
**Weather Consideration:** [Brief note on weather impact]

**Morning:**
- Activity: [Detailed description]
- Duration: [Time estimate]
- Location: [Specific place/area]
- Why Recommended: [Brief explanation]
- Pro Tip: [Helpful local insight]

**Lunch:**
- Restaurant: [Name and type]
- Cuisine: [Type of food]
- Price Range: [Budget indicator]
- Why Recommended: [What makes it special]

**Afternoon:**
- Activity: [Detailed description]
- Duration: [Time estimate]
- Location: [Specific place/area]
- Why Recommended: [Brief explanation]

**Dinner:**
- Restaurant: [Name and type]
- Cuisine: [Type of food]
- Price Range: [Budget indicator]
- Why Recommended: [What makes it special]

**Evening:**
- Activity: [Detailed description]
- Duration: [Time estimate]
- Location: [Specific place/area]
- Why Recommended: [Brief explanation]
- Pro Tip: [Helpful local insight]
---

Additional Guidelines:
1. Be specific with names, addresses, and timings
2. Include estimated costs where possible
3. Mention if reservations are recommended/required
4. Consider walking distances between locations
5. Include public transport options
6. Note any safety considerations
7. Include local emergency numbers if relevant
8. Suggest alternatives for each major activity
9. Consider the weather in your recommendations
10. Keep the tone friendly and engaging

Format the response in clear, easy-to-read markdown.
"
}

=== FILE: text.dfy ===
/** Character-level helpers shared by the prompt builder and the loading
    overlay: decimal digits, integer-to-text conversion (Python's str(int),
    JavaScript's number-to-string for integers) and ASCII case mapping
    (str.lower, str.capitalize). */
module Text {

  predicate IsDigit(c: char) {
    '0' <= c <= '9'
  }

  predicate AllDigits(s: string) {
    forall i :: 0 <= i < |s| ==> IsDigit(s[i])
  }

  function DigitValue(c: char): (v: nat)
    requires IsDigit(c)
    ensures v < 10
  {
    c as int - '0' as int
  }

  function DigitChar(v: nat): (c: char)
    requires v < 10
    ensures IsDigit(c) && DigitValue(c) == v
  {
    ('0' as int + v) as char
  }

  /** The value of a run of decimal digits, most significant first (int(s)). */
  function DigitsValue(s: string): nat
    requires AllDigits(s)
  {
    if s == [] then 0 else DigitsValue(s[..|s| - 1]) * 10 + DigitValue(s[|s| - 1])
  }

  function Pow10(k: nat): (p: nat)
    ensures p >= 1
  {
    if k == 0 then 1 else 10 * Pow10(k - 1)
  }

  /** The shortest decimal spelling of a natural number. */
  function NatDecimal(n: nat): (s: string)
    ensures 1 <= |s| && AllDigits(s)
    ensures s[0] == '0' ==> n == 0
    decreases n
  {
    if n < 10 then [DigitChar(n)] else NatDecimal(n / 10) + [DigitChar(n % 10)]
  }

  /** `n` written with exactly `width` digits, zero-padded on the left. */
  function Padded(n: nat, width: nat): (s: string)
    ensures |s| == width && AllDigits(s)
  {
    if width == 0 then [] else Padded(n / 10, width - 1) + [DigitChar(n % 10)]
  }

  /** Decimal text of an integer, with a leading '-' when negative. */
  function Decimal(n: int): (s: string)
    ensures 1 <= |s| && (IsDigit(s[0]) || s[0] == '-')
    ensures s[0] == '-' <==> n < 0
  {
    if n < 0 then "-" + NatDecimal(-n) else NatDecimal(n)
  }

  /** The value of a two-digit run. */
  lemma TwoDigitsValue(s: string)
    requires |s| == 2 && AllDigits(s)
    ensures DigitsValue(s) == DigitValue(s[0]) * 10 + DigitValue(s[1])
  {
    var first := s[..1];
    assert first == [s[0]] && first[..0] == [];
    assert DigitsValue(first) == DigitValue(s[0]);
    assert DigitsValue(s) == DigitsValue(first) * 10 + DigitValue(s[1]);
  }

  /** A run of `k` digits is worth less than 10^k. */
  lemma {:induction false} DigitsValueBound(s: string)
    requires AllDigits(s)
    ensures DigitsValue(s) < Pow10(|s|)
  {
    if s != [] {
      DigitsValueBound(s[..|s| - 1]);
    }
  }

  /** Reading back the decimal spelling gives the number: the spelling loses nothing. */
  lemma {:induction false} NatDecimalRoundTrip(n: nat)
    ensures DigitsValue(NatDecimal(n)) == n
    decreases n
  {
    var s := NatDecimal(n);
    if n >= 10 {
      NatDecimalRoundTrip(n / 10);
      assert s[..|s| - 1] == NatDecimal(n / 10);
    }
  }

  /** A zero-padded number of `width` digits reads back as itself when it fits. */
  lemma {:induction false} PaddedRoundTrip(n: nat, width: nat)
    requires n < Pow10(width)
    ensures DigitsValue(Padded(n, width)) == n
  {
    if width > 0 {
      var s := Padded(n, width);
      assert n / 10 < Pow10(width - 1);
      PaddedRoundTrip(n / 10, width - 1);
      assert s[..|s| - 1] == Padded(n / 10, width - 1);
      assert DigitValue(s[|s| - 1]) == n % 10;
      assert DigitsValue(s) == (n / 10) * 10 + n % 10;
    }
  }

  /** A run of digits is the zero-padded spelling, at its own width, of the
      number it denotes: reading digits loses nothing but the width. */
  lemma {:induction false} PaddedOfDigits(s: string)
    requires AllDigits(s)
    ensures Padded(DigitsValue(s), |s|) == s
  {
    if s != [] {
      var init, last := s[..|s| - 1], s[|s| - 1];
      PaddedOfDigits(init);
      var v := DigitsValue(s);
      assert v / 10 == DigitsValue(init) && v % 10 == DigitValue(last);
      assert DigitChar(DigitValue(last)) == last;
      assert s == init + [last];
    }
  }

  /** A number below 100 padded to two digits, and its shortest spelling. */
  lemma PaddedTwo(n: nat)
    requires n < 100
    ensures Padded(n, 2) == [DigitChar(n / 10), DigitChar(n % 10)]
    ensures 10 <= n ==> NatDecimal(n) == Padded(n, 2)
    ensures n < 10 ==> NatDecimal(n) == [DigitChar(n)]
  {
    var hi, lo := n / 10, n % 10;
    assert hi < 10 && hi % 10 == hi && hi / 10 == 0;
    assert Padded(hi, 1) == Padded(0, 0) + [DigitChar(hi)];
    assert Padded(n, 2) == Padded(hi, 1) + [DigitChar(lo)];
    if 10 <= n {
      assert NatDecimal(n) == NatDecimal(hi) + [DigitChar(lo)];
    }
  }

  /** Distinct integers have distinct decimal spellings. */
  lemma DecimalInjective(m: int, n: int)
    requires Decimal(m) == Decimal(n)
    ensures m == n
  {
    if m < 0 {
      assert n < 0;
      assert ("-" + NatDecimal(-m))[1..] == NatDecimal(-m);
      assert ("-" + NatDecimal(-n))[1..] == NatDecimal(-n);
      NatDecimalRoundTrip(-m);
      NatDecimalRoundTrip(-n);
    } else {
      assert n >= 0;
      NatDecimalRoundTrip(m);
      NatDecimalRoundTrip(n);
    }
  }

  function LowerChar(c: char): char {
    if 'A' <= c <= 'Z' then (c as int + 32) as char else c
  }

  function UpperChar(c: char): char {
    if 'a' <= c <= 'z' then (c as int - 32) as char else c
  }

  /** str.lower, on ASCII letters. */
  function Lower(s: string): (r: string)
    ensures |r| == |s|
    ensures forall i :: 0 <= i < |s| ==> r[i] == LowerChar(s[i])
  {
    seq(|s|, i requires 0 <= i < |s| => LowerChar(s[i]))
  }

  /** str.capitalize, on ASCII letters: first character upper case, the rest lower case. */
  function Capitalize(s: string): (r: string)
    ensures |r| == |s|
    ensures |s| > 0 ==> r[0] == UpperChar(s[0]) && r[1..] == Lower(s[1..])
  {
    if s == [] then [] else [UpperChar(s[0])] + Lower(s[1..])
  }

  /** The capitalised text names the same word, ignoring case, as the original. */
  lemma CapitalizeKeepsLower(s: string)
    ensures Lower(Capitalize(s)) == Lower(s)
  {
    if s != [] {
      var c := Capitalize(s);
      forall i | 0 <= i < |s|
        ensures Lower(c)[i] == Lower(s)[i]
      {
        if i > 0 {
          assert c[i] == Lower(s[1..])[i - 1];
        }
      }
    }
  }
}

=== FILE: wrappers.dfy ===
/** Optional values and success-or-error results, used in place of Python's
    None and raised exceptions. */
module Wrappers {

  datatype Option<+T> = None | Some(value: T)

  datatype Result<+R, +E> = Success(value: R) | Failure(error: E)
}
